=== FILE: README.md ===
# Riptide in-vehicle browser: Cast command dispatcher and gesture/overlay state machine

This project models two parts of a kiosk browser for Android Automotive.

The first part is the Chromecast receiver. It has three pieces:

- The message handler reads a JSON command arriving on the Cast channel and dispatches it on its `type`. The types are `load_url`, `execute_js`, `toggle_navigation`, `get_status` and `ping`.
- The receiver manager holds the Cast session state. It sends replies only when it can, and hands UI commands to the activity only when one is attached.
- The page bridge is what the embedded page calls into.

The second part is the host activity's own state machine. It covers:

- the finger count behind the three-finger gesture;
- the popover menu and its one auto-hide timer;
- the root-layout tap that dismisses the menu;
- the popover buttons;
- the two padding switches and the margins they produce.

Everything is written as immutable records and pure step functions. Properties over whole event sequences are proved as lemmas.

Modules, one per source component:

- `Json` (json.dfy): parsed JSON values. Reading a field as text (Android's org.json). Java's `String.trim`. Decimal rendering of integers.
- `CastProtocol` (protocol.dfy): the namespace, inbound messages, UI actions and replies. Also the JSON object each reply is serialised from.
- `MessageHandler` (handler.dfy): `CastMessageHandler`. It splits the work into `Decode`, which turns an object into a typed command or an error text, and `Execute`, which turns a command into an action and a reply. `Handle` joins them and has the same branches as the switch.
- `ReceiverManager` (manager.dfy): `CastReceiverManager` as a record with an outbound log.
- `CastBridge` (bridge.dfy): `CastJavaScriptInterface`. Its weak reference is an `Option<Manager>`.
- `MainActivity` (activity.dfy) and `ActivityProperties` (activity_properties.dfy): the activity's state and its event-sequence properties.
- `RemoteControl` (remote_control.dfy): a Cast message end to end, from the manager through the dispatcher to the activity.

Inputs from outside become parameters:

- clock readings (`now`);
- the outcomes of Cast SDK calls (`InitOutcome`, `removalFails`, `registrationFails`);
- the SDK's current session;
- the WebView's `canGoBack` and `canGoForward` (`History`);
- the popover's on-screen bounds;
- the layout's initial menu visibility and margins.

Some of the code's behaviour is easy to misread; the model follows the code:

- A `load_url` without `url` is answered with "Missing or invalid URL parameter", not "URL parameter is required". The latter is only for a `url` that is blank after trimming. `execute_js` works the same way.
- `status_response` and `pong` replies carry no `status` field. Only `response` replies do.
- The app runs on Android's org.json. There `getString` and `optString` turn any present value into text: numbers in decimal, booleans as `true`/`false`, JSON null as `"null"`. So a number, boolean or null in `url` is not refused: `{"type":"load_url","url":5}` navigates to `"5"`. An array or object holding NaN or Infinity has no text, and then `getString` fails as if the field were absent (see `Json.FieldText` under "Left out").
- A non-blank `load_url` or `execute_js` is answered with success even when no activity is attached and nothing is loaded (`RemoteControl.RemoteLoadUrl`).
- `destroy` clears `isInitialized` only after removing the session listener. If that removal throws, the flag stays set (`ReceiverManager.Destroy`).

## Model

| member | source | states |
|---|---|---|
| `Json.FieldText` | automotive/src/main/java/com/adamucf/simpleaacpbrowser/cast/CastMessageHandler.java:61 | reading a field as text fails exactly when the field is absent; a present field, JSON null included, yields its org.json text |
| `Json.Text` | automotive/src/main/java/com/adamucf/simpleaacpbrowser/cast/CastMessageHandler.java:61 | the text org.json gives a present field: a string as is, an integer as decimal text that reads back to the same integer, booleans as `true`/`false`, JSON null as `"null"`, any other value as its rendering |
| `Json.Decimal` | automotive/src/main/java/com/adamucf/simpleaacpbrowser/cast/CastMessageHandler.java:61 | `String.valueOf` on an integer: a minus sign exactly for negative numbers, then decimal digits with no leading zero |
| `MessageHandler.MessageType` | automotive/src/main/java/com/adamucf/simpleaacpbrowser/cast/CastMessageHandler.java:21 | `optString("type", "")`: a missing type reads as the empty string, a present one as its org.json text |
| `Json.Trim` | automotive/src/main/java/com/adamucf/simpleaacpbrowser/cast/CastMessageHandler.java:63 | `trim` yields the infix of its argument left once only characters at or below U+0020 are dropped from the front and from the back, and it neither starts nor ends with such a character |
| `Json.BlankIffAllTrimmable` | automotive/src/main/java/com/adamucf/simpleaacpbrowser/cast/CastMessageHandler.java:80 | `s.trim().isEmpty()` holds exactly when every character of `s` is at or below U+0020 |
| `Json.DecimalRoundTrip` | automotive/src/main/java/com/adamucf/simpleaacpbrowser/cast/CastMessageHandler.java:21 | the decimal text of an integer field reads back to the same integer, so distinct integers within Java's `long` range never read as the same type or URL |
| `Json.ScalarTextNotBlank` | automotive/src/main/java/com/adamucf/simpleaacpbrowser/cast/CastMessageHandler.java:61-63 | a number, boolean or null in `url`/`javascript` reads as non-blank text, so it passes the blank check |
| `CastProtocol.ReplyObject` | automotive/src/main/java/com/adamucf/simpleaacpbrowser/cast/CastMessageHandler.java:99-181 | success replies are `{type:"response", status:"success", message}`; error replies are `{type:"response", status:"error", error}`; the status report carries `receiver_ready` true, version "1.9", app name "Riptide" and four capability flags true; a pong has exactly the keys `type`, `timestamp` and, when asked to, `data`; it carries `data` exactly when asked to; each is stamped with the send time |
| `MessageHandler.ReadRequired` | automotive/src/main/java/com/adamucf/simpleaacpbrowser/cast/CastMessageHandler.java:61-72 | a required text field is missing exactly when absent, blank exactly when present and blank after trimming, and otherwise yields the untrimmed text |
| `MessageHandler.Decode` | automotive/src/main/java/com/adamucf/simpleaacpbrowser/cast/CastMessageHandler.java:19-48 | only well-formed commands are accepted; an unknown type is refused with "Unknown message type: " + type; among the known types only `load_url` and `execute_js` can be refused; a ping keeps `data` exactly when present |
| `MessageHandler.Execute` | automotive/src/main/java/com/adamucf/simpleaacpbrowser/cast/CastMessageHandler.java:59-145 | an accepted command never gets an error reply; exactly `load_url`, `execute_js` and `toggle_navigation` ask for a UI action, and it carries the untrimmed URL or script |
| `MessageHandler.Handle` | automotive/src/main/java/com/adamucf/simpleaacpbrowser/cast/CastMessageHandler.java:16-57 | unparseable input gets exactly the error "Invalid JSON format" and no action; any action comes with a success reply; the reply is an error exactly when parsing or decoding refused the message |
| `MessageHandler.DecodeEncode` | automotive/src/main/java/com/adamucf/simpleaacpbrowser/cast/CastMessageHandler.java:23-42 | every well-formed command, written as a sender would write it, is read back as itself and dispatched to its own branch |
| `MessageHandler.OnlyReadFieldsMatter` | automotive/src/main/java/com/adamucf/simpleaacpbrowser/cast/CastMessageHandler.java:21-133 | messages that agree on `type`, `url`, `javascript` and `data` are dispatched alike |
| `MessageHandler.LoadUrlOutcomes` | automotive/src/main/java/com/adamucf/simpleaacpbrowser/cast/CastMessageHandler.java:59-74 | a missing `url` gives "Missing or invalid URL parameter" and wins over blankness; a blank one gives "URL parameter is required"; otherwise the untrimmed URL is loaded with "URL loaded successfully"; only the last navigates |
| `MessageHandler.ExecuteJsOutcomes` | automotive/src/main/java/com/adamucf/simpleaacpbrowser/cast/CastMessageHandler.java:76-91 | the same three outcomes on `javascript`, with "Missing or invalid JavaScript parameter", "JavaScript parameter is required" and "JavaScript executed successfully" |
| `MessageHandler.ToggleNavigationOutcome` | automotive/src/main/java/com/adamucf/simpleaacpbrowser/cast/CastMessageHandler.java:93-97 | `toggle_navigation` always asks for one overlay toggle and replies "Navigation toggled successfully" |
| `MessageHandler.GetStatusOutcome` | automotive/src/main/java/com/adamucf/simpleaacpbrowser/cast/CastMessageHandler.java:99-122 | `get_status` performs no action, and its reply is the same whatever else the message holds |
| `MessageHandler.PingOutcome` | automotive/src/main/java/com/adamucf/simpleaacpbrowser/cast/CastMessageHandler.java:124-145 | `ping` performs no action and gets a pong that carries `data` exactly when the request had it, with the same value |
| `MessageHandler.UnknownTypeOutcome` | automotive/src/main/java/com/adamucf/simpleaacpbrowser/cast/CastMessageHandler.java:21-47 | any other type is refused with "Unknown message type: " + type and no action; a missing type counts as the empty string |
| `MessageHandler.NamespaceIgnored` | automotive/src/main/java/com/adamucf/simpleaacpbrowser/cast/CastMessageHandler.java:16-57 | the namespace a message arrives on never changes how it is handled |
| `ReceiverManager.Create` | automotive/src/main/java/com/adamucf/simpleaacpbrowser/cast/CastReceiverManager.java:28-33 | a new manager is not initialized, has no SDK handle, no activity and has sent nothing |
| `ReceiverManager.Initialize` | automotive/src/main/java/com/adamucf/simpleaacpbrowser/cast/CastReceiverManager.java:35-50 | `isInitialized` becomes true and the listener is registered only when every SDK call succeeds; a failed context lookup leaves the manager as it was, a rejected listener only records the session manager; session, activity, channels and outbox never change |
| `ReceiverManager.Destroy` | automotive/src/main/java/com/adamucf/simpleaacpbrowser/cast/CastReceiverManager.java:56-66 | `destroy` clears `isInitialized` and unregisters the listener; if removing the listener throws, the manager is left exactly as it was; nothing but the flag and the registration ever changes |
| `ReceiverManager.AttachActivity` | automotive/src/main/java/com/adamucf/simpleaacpbrowser/cast/CastReceiverManager.java:52-54 | `setMainActivity` attaches the activity and changes nothing else |
| `ReceiverManager.ActivityCollected` | automotive/src/main/java/com/adamucf/simpleaacpbrowser/cast/CastReceiverManager.java:94 | once the activity behind the weak reference is gone, the manager has no activity; nothing else changes |
| `ReceiverManager.Send` | automotive/src/main/java/com/adamucf/simpleaacpbrowser/cast/CastReceiverManager.java:80-90 | a message is appended to the outbox exactly when a session manager exists and its current session is connected; otherwise nothing happens and no error escapes |
| `ReceiverManager.LoadUrlFromCast` | automotive/src/main/java/com/adamucf/simpleaacpbrowser/cast/CastReceiverManager.java:93-104 | a load command is posted exactly when an activity is attached, and it carries the URL unchanged |
| `ReceiverManager.ExecuteJavaScriptFromCast` | automotive/src/main/java/com/adamucf/simpleaacpbrowser/cast/CastReceiverManager.java:107-118 | a script command is posted exactly when an activity is attached, and it carries the script unchanged |
| `ReceiverManager.ToggleNavigationFromCast` | automotive/src/main/java/com/adamucf/simpleaacpbrowser/cast/CastReceiverManager.java:121-129 | an overlay toggle is posted exactly when an activity is attached |
| `ReceiverManager.HandleCastMessage` | automotive/src/main/java/com/adamucf/simpleaacpbrowser/cast/CastReceiverManager.java:73-77 | the message goes to the dispatcher unchanged: its reply, stamped with the time, is appended on the receiver's namespace exactly when the session is connected, and its action is posted exactly when an activity is attached; earlier messages are untouched and nothing else in the manager changes |
| `ReceiverManager.OnSessionStarted` | automotive/src/main/java/com/adamucf/simpleaacpbrowser/cast/CastReceiverManager.java:135-158 | a session start registers the message callback on the receiver's namespace and sends `{"type":"receiver_ready"}` there, changing nothing else; if registration throws, nothing changes |
| `ReceiverManager.OnlyRegisteredNamespacesAnswered` | automotive/src/main/java/com/adamucf/simpleaacpbrowser/cast/CastReceiverManager.java:140-150 | a message is answered exactly when a callback is registered on its namespace and the session is connected; a message on any other namespace changes nothing |
| `ReceiverManager.InitializedIffListening` | automotive/src/main/java/com/adamucf/simpleaacpbrowser/cast/CastReceiverManager.java:35-66 | through any sequence of events from construction on, `isInitialized` holds exactly while the session listener is registered |
| `ReceiverManager.RunKeepsValid` | automotive/src/main/java/com/adamucf/simpleaacpbrowser/cast/CastReceiverManager.java:44-61 | every manager event keeps `isInitialized` in step with the listener registration |
| `ReceiverManager.OutboxOnlyGrows` | automotive/src/main/java/com/adamucf/simpleaacpbrowser/cast/CastReceiverManager.java:80-90 | over any sequence of events, sent messages are only appended and never altered |
| `CastBridge.GetCastStatus` | automotive/src/main/java/com/adamucf/simpleaacpbrowser/cast/CastJavaScriptInterface.java:40-53 | the status is "ready" exactly when the manager is still reachable and initialized, and "not_ready" otherwise; both carry version "1.7" and the time |
| `CastBridge.StatusReportsListener` | automotive/src/main/java/com/adamucf/simpleaacpbrowser/cast/CastJavaScriptInterface.java:40-48 | from construction on, through any sequence of manager events, the page sees "ready" exactly while the session listener is registered |
| `CastBridge.SendCastMessage` | automotive/src/main/java/com/adamucf/simpleaacpbrowser/cast/CastJavaScriptInterface.java:55-63 | the page's text is sent on the receiver's namespace through the manager's guarded send when the manager is reachable; otherwise nothing happens |
| `CastBridge.OnReceiverReady` | automotive/src/main/java/com/adamucf/simpleaacpbrowser/cast/CastJavaScriptInterface.java:21-33 | a `receiver_page_ready` notice stamped with the time is sent when the manager is reachable; otherwise nothing happens |
| `CastBridge.ReadyNoticeKeepsStatus` | automotive/src/main/java/com/adamucf/simpleaacpbrowser/cast/CastJavaScriptInterface.java:21-53 | the ready notice reaches the sender exactly when the manager can send, and the status the page then reads is unchanged |
| `CastBridge.LogMessage` | automotive/src/main/java/com/adamucf/simpleaacpbrowser/cast/CastJavaScriptInterface.java:35-38 | logging from the page changes nothing |
| `CastBridge.PageMessagesForwardedVerbatim` | automotive/src/main/java/com/adamucf/simpleaacpbrowser/cast/CastJavaScriptInterface.java:59-62 | the outbox grows by exactly the page's text, verbatim, when the manager can send, and not at all otherwise |
| `MainActivity.Create` | automotive/src/main/java/com/adamucf/simpleaacpbrowser/MainActivity.java:44-71 | the activity starts with the given home URL, menu visibility and margins, no fingers counted, no timer, both paddings off, and the home page loaded |
| `MainActivity.ShowPopover` | automotive/src/main/java/com/adamucf/simpleaacpbrowser/MainActivity.java:240-260 | showing makes the popover visible, cancels the earlier hide task and queues a fresh one with the 10 s delay; nothing but the popover and its timer changes, so the WebView, gesture state, margins, padding switches and home URL are untouched |
| `MainActivity.HidePopover` | automotive/src/main/java/com/adamucf/simpleaacpbrowser/MainActivity.java:262-267 | hiding makes the popover hidden and cancels the current hide task; nothing but the popover and the timer queue changes |
| `MainActivity.TogglePopover` | automotive/src/main/java/com/adamucf/simpleaacpbrowser/MainActivity.java:232-238 | toggling flips visibility and touches nothing but the popover and its timer; showing queues a new hide task with the 10 s delay, hiding cancels the pending one and queues nothing |
| `MainActivity.TimerFires` | automotive/src/main/java/com/adamucf/simpleaacpbrowser/MainActivity.java:253-259 | a queued hide task that runs leaves the queue and hides the popover; a task that is not queued does nothing; nothing but the popover and the queue changes |
| `MainActivity.Lift` | automotive/src/main/java/com/adamucf/simpleaacpbrowser/MainActivity.java:173-182 | a lift toggles the popover exactly when the flag is set and three fingers are counted; afterwards the count is max(0, n-1), and the flag stays set exactly while the count stays positive; a lift that does not toggle changes nothing but the count and the flag; a lift that toggles is exactly `togglePopoverMenu` with the count set to 2; the WebView, margins and padding switches are untouched |
| `MainActivity.HandleMultiTouch` | automotive/src/main/java/com/adamucf/simpleaacpbrowser/MainActivity.java:161-184 | a first finger sets the count to 1 and clears the flag; a pointer-down sets the count to the reported pointer count and raises the flag at exactly 3 without ever clearing it; lifts behave as `Lift`; other actions change nothing; a down event changes nothing but the count and the flag |
| `MainActivity.RootTouch` | automotive/src/main/java/com/adamucf/simpleaacpbrowser/MainActivity.java:140-158 | a root tap is consumed exactly when it is a first-finger down, the popover is visible and the point lies outside the closed rectangle of its bounds; then the popover hides, otherwise nothing changes |
| `MainActivity.MarginsFor` | automotive/src/main/java/com/adamucf/simpleaacpbrowser/MainActivity.java:291-298 | `updateWebViewPadding` leaves left and bottom at 0, and the top and right margins are positive exactly when their switch is on |
| `MainActivity.ToggleTopPadding` | automotive/src/main/java/com/adamucf/simpleaacpbrowser/MainActivity.java:281-298 | the top switch flips, the top margin becomes 100 dp or 0, and the right margin is unchanged when it already reflected its switch; nothing but the top switch and the margins changes |
| `MainActivity.ToggleRightPadding` | automotive/src/main/java/com/adamucf/simpleaacpbrowser/MainActivity.java:286-298 | the right switch flips, the right margin becomes 200 dp or 0, and the top margin is unchanged when it already reflected its switch; nothing but the right switch and the margins changes |
| `MainActivity.Press` | automotive/src/main/java/com/adamucf/simpleaacpbrowser/MainActivity.java:186-230 | every popover button leaves the popover hidden; Home loads the home page; Back and Forward navigate only when the WebView can; the padding buttons flip their own switch only; no button touches the finger count, the gesture flag or the home URL |
| `MainActivity.BackPressed` | automotive/src/main/java/com/adamucf/simpleaacpbrowser/MainActivity.java:305-312 | the back key goes back in the WebView when it can, and otherwise falls through to closing the activity |
| `MainActivity.RunRemote` | automotive/src/main/java/com/adamucf/simpleaacpbrowser/cast/CastReceiverManager.java:96-128 | a posted load or script command is issued to the WebView unchanged; a posted toggle is exactly `togglePopoverMenu` |
| `ActivityProperties.StepKeepsInv` | automotive/src/main/java/com/adamucf/simpleaacpbrowser/MainActivity.java:143-298 | every event keeps the finger count non-negative and positive while the flag is set, and keeps at most one hide task queued, and none while the popover is hidden |
| `ActivityProperties.RunKeepsInv` | automotive/src/main/java/com/adamucf/simpleaacpbrowser/MainActivity.java:161-267 | the same invariant holds after any sequence of events Android can deliver |
| `ActivityProperties.ShowLeavesOneTimer` | automotive/src/main/java/com/adamucf/simpleaacpbrowser/MainActivity.java:240-260 | after showing, exactly one hide task is pending, the new one, with the 10 s delay; the earlier one is cancelled |
| `ActivityProperties.HideLeavesNoTimer` | automotive/src/main/java/com/adamucf/simpleaacpbrowser/MainActivity.java:262-267 | after hiding, no hide task is pending |
| `ActivityProperties.ToggleTwice` | automotive/src/main/java/com/adamucf/simpleaacpbrowser/MainActivity.java:232-238 | toggling twice restores the whole activity except the timer bookkeeping, with no timer pending when hidden and exactly one when visible |
| `ActivityProperties.TimerHides` | automotive/src/main/java/com/adamucf/simpleaacpbrowser/MainActivity.java:253-256 | when the pending hide task fires, the popover was visible and ends hidden with nothing pending |
| `ActivityProperties.ButtonsHide` | automotive/src/main/java/com/adamucf/simpleaacpbrowser/MainActivity.java:186-229 | after any button, the popover is hidden with no timer pending |
| `ActivityProperties.TouchesFlipByToggleParity` | automotive/src/main/java/com/adamucf/simpleaacpbrowser/MainActivity.java:161-184 | touches change visibility only through their toggles: it ends flipped exactly when the number of toggles is odd |
| `ActivityProperties.LiftingFromTwoNeverToggles` | automotive/src/main/java/com/adamucf/simpleaacpbrowser/MainActivity.java:173-182 | with at most two fingers counted, any run of lifts never toggles; it counts down to a floor of zero and clears the flag there |
| `ActivityProperties.ThreeFingerGestureTogglesOnce` | automotive/src/main/java/com/adamucf/simpleaacpbrowser/MainActivity.java:161-184 | from any state, a three-finger press followed by one or more lifts toggles exactly once; after three lifts the count is zero and the flag is clear |
| `ActivityProperties.CanonicalGesture` | automotive/src/main/java/com/adamucf/simpleaacpbrowser/MainActivity.java:163-181 | DOWN, POINTER_DOWN(2), POINTER_DOWN(3), then lifting all three fingers toggles visibility exactly once |
| `ActivityProperties.TwoFingerGestureNeverToggles` | automotive/src/main/java/com/adamucf/simpleaacpbrowser/MainActivity.java:167-181 | a two-finger press never toggles, however the fingers are lifted |
| `ActivityProperties.PaddingToggleTwice` | automotive/src/main/java/com/adamucf/simpleaacpbrowser/MainActivity.java:281-289 | toggling a padding switch twice restores it, and restores the margins once they reflect the switches |
| `ActivityProperties.MarginsFollowSwitches` | automotive/src/main/java/com/adamucf/simpleaacpbrowser/MainActivity.java:291-296 | the margins are (0, 100 dp or 0, 200 dp or 0, 0) by the two switches |
| `RemoteControl.Receive` | automotive/src/main/java/com/adamucf/simpleaacpbrowser/cast/CastReceiverManager.java:73-129 | a received message changes the manager only by its outbox; an attached activity runs the dispatcher's action, if any, and is otherwise left alone, as is a detached one |
| `RemoteControl.Boot` | automotive/src/main/java/com/adamucf/simpleaacpbrowser/MainActivity.java:344-362 | at start-up the new manager is attached to the activity, has sent nothing, and is initialized exactly when every SDK call succeeded |
| `RemoteControl.OneReplyPerMessage` | automotive/src/main/java/com/adamucf/simpleaacpbrowser/cast/CastMessageHandler.java:16-57 | while the session stays connected, every message gets exactly one reply on the receiver's namespace, in order of arrival |
| `RemoteControl.RemoteLoadUrl` | automotive/src/main/java/com/adamucf/simpleaacpbrowser/cast/CastMessageHandler.java:59-74 | a non-blank `load_url` is answered with "URL loaded successfully" whether or not an activity is attached; only an attached activity loads the untrimmed URL |
| `RemoteControl.RemoteToggle` | automotive/src/main/java/com/adamucf/simpleaacpbrowser/cast/CastReceiverManager.java:121-129 | a `toggle_navigation` flips an attached activity's popover and is answered with success either way |
| `RemoteControl.RefusedMessagesTouchNothing` | automotive/src/main/java/com/adamucf/simpleaacpbrowser/cast/CastMessageHandler.java:44-72 | a refused message leaves the activity alone and is answered with status "error" |

## Left out

- The "Internal error: " + message reply is left out. No step the model dispatches can throw anything but the JSON exception of a field `getString` cannot read, which the model has only for a missing field. Every send catches its own exceptions, and the UI calls only post work to the UI thread.
- The "Failed to create status response" and "Failed to create pong response" errors are left out. `put` with these keys and values never throws in org.json, so neither error can occur.
- JSON parsing and serialisation are left out. A message is either unparseable or a field map, and a reply is the field map it is serialised from. Text that parses to a JSON value other than an object counts as unparseable, as in the code. Doubles, arrays and nested objects carry their org.json text (`Json.Other`).
- Json.FieldText: an array or object holding NaN or Infinity has no org.json text (its `toString` is null). For such a field `getString` throws, so `url` or `javascript` gets "Missing or invalid ... parameter"; `optString("type", "")` gives `""`; a pong echoing such `data` cannot be written and is not sent. The model gives every present value a text.
- `Json.Int` stands only for the Integer and Long values org.json produces. An integer literal outside Java's `long` range is parsed as a Double, so its text is a rendering such as `1.0E20` and it belongs to `Json.Other`; such literals can read alike.
- Clock readings are a `now` parameter. Log calls are dropped.
- `dpToPx` is left out because it uses the float display density. Margins are kept in dp.
- Java `int` overflow is not modelled. This covers `location + width` in the outside-tap test and the finger count. Screen coordinates and pointer counts are far below 2^31.
- The `(int)` truncation of the raw float coordinates is not modelled. The listener is modelled on the truncated integers.
- `runOnUiThread` and cross-thread hand-off are treated as immediate and in order.
- The `webView != null` checks inside the posted work are not modelled. The WebView is always present once `onCreate` has run.
- `updatePopoverButtonStates` (enabled state and alpha of the buttons) is not modelled. The model assumes every click reaches its listener. A Back or Forward button disabled at show time would deliver no click, and so would not hide the popover.
- The Cast SDK session lifecycle callbacks other than `onSessionStarted` are not modelled: they only log. Session connect and disconnect enter as `SessionChanged`. A message reaches `handleCastMessage` only on a namespace with a registered callback (`ReceiverManager.Step`). A registration is not dropped when its session ends.
- `ChromecastReceiverService.java` is not part of this model. It holds the foreground service, notification, multicast lock, mDNS registration and network-interface enumeration.
- `configureWebView`, `enterImmersiveMode`, `CustomWebViewClient` (which never overrides loading) and `CustomWebChromeClient` are framework configuration with no behaviour of their own.
- `onDestroy` is not modelled. It cancels the hide task, destroys the manager (`ReceiverManager.Destroy`) and stops the service.
- WebView history is reduced to the `canGoBack`/`canGoForward` booleans at the moment of a press.
- The layout resource's initial menu visibility and margins, and the default URL string resource, are parameters of `MainActivity.Create`.
- `RemoteControl.Boot` always creates the manager. In the code, `startForegroundService` can throw before the manager is created; no manager then exists, and the page bridge is never added.
- The error reply of `getCastStatus` is not modelled. It is built from an exception's message, and nothing inside the `try` can throw once the weak reference has been read.

=== FILE: activity.dfy ===
/** The host activity's own state: the finger count behind the three-finger gesture, the
    popover menu with its one auto-hide timer, the two padding switches and the margins
    they produce, and the commands issued to the WebView. Views, the Handler queue and the
    WebView are reduced to the state these need; WebView history is reduced to whether it
    can go back or forward when a button is pressed. */
module MainActivity {
  import opened Json
  import opened CastProtocol

  /** The popover hides itself this many milliseconds after it is shown. */
  const AutoHideDelayMs: nat := 10000
  /** Margins are in dp; converting to pixels by the display density is not modelled. */
  const TopPaddingDp: nat := 100
  const RightPaddingDp: nat := 200

  /** The masked action of a touch event on the WebView. `PointerDown` carries the pointer
      count the event reports; `OtherAction` stands for moves, cancels and the rest. */
  datatype TouchAction = Down | PointerDown(pointerCount: nat) | Up | PointerUp | OtherAction

  /** A command issued to the WebView. */
  datatype WebCommand = Load(url: string) | Back | Forward | Evaluate(script: string)

  datatype Margins = Margins(left: nat, top: nat, right: nat, bottom: nat)

  /** The popover menu's bounds on screen: left and top corner, width and height. */
  datatype Rect = Rect(left: int, top: int, width: int, height: int)

  datatype Button = HomeButton | BackButton | ForwardButton | TopPaddingButton | RightPaddingButton

  /** What the WebView reports about its history when a button is pressed. */
  datatype History = History(canGoBack: bool, canGoForward: bool)

  datatype Activity = Activity(
    homeUrl: string,            // the default URL resource
    fingerCount: int,
    threeFinger: bool,          // `isThreeFingerTouch`
    menuVisible: bool,
    hideTask: Option<nat>,      // the current `hideRunnable`, by task id
    pending: map<nat, nat>,     // tasks queued on the hide Handler: id to delay in ms
    nextTask: nat,              // the id the next `hideRunnable` gets
    topPadding: bool,
    rightPadding: bool,
    margins: Margins,           // the WebView's layout margins
    web: seq<WebCommand>)       // every command issued to the WebView, in order

  /** `onCreate`: the home page is loaded; menu visibility and margins are whatever the
      layout declares. */
  function Create(homeUrl: string, menuVisible: bool, margins: Margins): (a: Activity)
    ensures a.fingerCount == 0 && !a.threeFinger && a.pending == map[]
    ensures !a.topPadding && !a.rightPadding
    ensures a.web == [Load(homeUrl)]
    ensures a.homeUrl == homeUrl && a.menuVisible == menuVisible && a.margins == margins
    ensures a.hideTask.None?
  {
    Activity(homeUrl, 0, false, menuVisible, None, map[], 0, false, false, margins, [Load(homeUrl)])
  }

  // ---------------------------------------------------------------------------
  // Popover menu and its auto-hide timer

  /** `showPopoverMenu`: the earlier hide task is cancelled and a fresh one is queued. */
  function ShowPopover(a: Activity): (r: Activity)
    ensures r.menuVisible
    ensures r.hideTask == Some(a.nextTask) && r.nextTask > a.nextTask
    ensures a.nextTask in r.pending && r.pending[a.nextTask] == AutoHideDelayMs
    ensures a.hideTask.Some? ==> a.hideTask.value == a.nextTask || a.hideTask.value !in r.pending
    ensures r.pending.Keys <= a.pending.Keys + {a.nextTask}
    ensures r.fingerCount == a.fingerCount && r.threeFinger == a.threeFinger && r.web == a.web
    ensures r.margins == a.margins && r.topPadding == a.topPadding && r.rightPadding == a.rightPadding
    ensures r.(menuVisible := a.menuVisible, hideTask := a.hideTask, pending := a.pending,
               nextTask := a.nextTask) == a
  {
    var kept := if a.hideTask.Some? then a.pending - {a.hideTask.value} else a.pending;
    a.(menuVisible := true, hideTask := Some(a.nextTask),
       pending := kept[a.nextTask := AutoHideDelayMs], nextTask := a.nextTask + 1)
  }

  /** `hidePopoverMenu`: the current hide task is cancelled. */
  function HidePopover(a: Activity): (r: Activity)
    ensures !r.menuVisible
    ensures r.hideTask == a.hideTask && r.nextTask == a.nextTask
    ensures r.pending.Keys <= a.pending.Keys
    ensures a.hideTask.Some? ==> a.hideTask.value !in r.pending
    ensures r.fingerCount == a.fingerCount && r.threeFinger == a.threeFinger && r.web == a.web
    ensures r.margins == a.margins && r.topPadding == a.topPadding && r.rightPadding == a.rightPadding
    ensures r.(menuVisible := a.menuVisible, pending := a.pending) == a
  {
    var kept := if a.hideTask.Some? then a.pending - {a.hideTask.value} else a.pending;
    a.(menuVisible := false, pending := kept)
  }

  /** `togglePopoverMenu` */
  function TogglePopover(a: Activity): (r: Activity)
    ensures r.menuVisible == !a.menuVisible
    ensures r.fingerCount == a.fingerCount && r.threeFinger == a.threeFinger && r.web == a.web
    ensures r.margins == a.margins && r.topPadding == a.topPadding && r.rightPadding == a.rightPadding
    ensures r.(menuVisible := a.menuVisible, hideTask := a.hideTask, pending := a.pending,
               nextTask := a.nextTask) == a
    ensures !a.menuVisible ==>
      r.hideTask == Some(a.nextTask) && a.nextTask in r.pending && r.pending[a.nextTask] == AutoHideDelayMs
    ensures a.menuVisible ==>
      r.pending.Keys <= a.pending.Keys && (a.hideTask.Some? ==> a.hideTask.value !in r.pending)
  {
    if a.menuVisible then HidePopover(a) else ShowPopover(a)
  }

  /** The hide Handler runs a queued task: it leaves the queue, and a `hideRunnable` hides
      the popover. Only queued tasks run. */
  function TimerFires(a: Activity, task: nat): (r: Activity)
    ensures task in a.pending ==> !r.menuVisible && task !in r.pending
    ensures task !in a.pending ==> r == a
    ensures task in a.pending ==> r.(menuVisible := a.menuVisible, pending := a.pending) == a
  {
    if task in a.pending then HidePopover(a.(pending := a.pending - {task})) else a
  }

  // ---------------------------------------------------------------------------
  // Three-finger gesture on the WebView

  /** The up-event branch shared by ACTION_UP and ACTION_POINTER_UP. */
  function Lift(a: Activity): (r: Activity)
    ensures r.fingerCount == if a.fingerCount >= 1 then a.fingerCount - 1 else 0
    ensures r.fingerCount >= 0
    ensures r.threeFinger <==> a.threeFinger && r.fingerCount != 0
    ensures r.web == a.web && r.margins == a.margins
    ensures r.topPadding == a.topPadding && r.rightPadding == a.rightPadding
    ensures r.menuVisible == (a.menuVisible != (a.threeFinger && a.fingerCount == 3))
    ensures a.threeFinger && a.fingerCount == 3 ==> r == TogglePopover(a).(fingerCount := 2)
    ensures !(a.threeFinger && a.fingerCount == 3) ==>
      r.(fingerCount := a.fingerCount, threeFinger := a.threeFinger) == a
  {
    var b := if a.threeFinger && a.fingerCount == 3 then TogglePopover(a) else a;
    var n := if a.fingerCount - 1 > 0 then a.fingerCount - 1 else 0;
    b.(fingerCount := n, threeFinger := if n == 0 then false else b.threeFinger)
  }

  /** `handleMultiTouch` */
  function HandleMultiTouch(a: Activity, t: TouchAction): (r: Activity)
    ensures t.Down? ==> r.fingerCount == 1 && !r.threeFinger && r.menuVisible == a.menuVisible
    ensures t.PointerDown? ==>
      && r.fingerCount == t.pointerCount
      && (r.threeFinger <==> a.threeFinger || t.pointerCount == 3)
      && r.menuVisible == a.menuVisible
    ensures (t.Up? || t.PointerUp?) ==> r == Lift(a)
    ensures t.OtherAction? ==> r == a
    ensures r.web == a.web && r.margins == a.margins
    ensures !(t.Up? || t.PointerUp?) ==>
      r.(fingerCount := a.fingerCount, threeFinger := a.threeFinger) == a
  {
    match t
    case Down => a.(fingerCount := 1, threeFinger := false)
    case PointerDown(n) => a.(fingerCount := n, threeFinger := a.threeFinger || n == 3)
    case Up => Lift(a)
    case PointerUp => Lift(a)
    case OtherAction => a
  }

  // ---------------------------------------------------------------------------
  // Taps on the root layout

  /** The closed rectangle of the popover's bounds. */
  predicate Inside(menu: Rect, x: int, y: int)
  {
    menu.left <= x <= menu.left + menu.width && menu.top <= y <= menu.top + menu.height
  }

  datatype Tapped = Tapped(activity: Activity, consumed: bool)

  /** The root layout's touch listener, on the event's action and truncated raw
      coordinates: a down press outside the visible popover hides it and is consumed. */
  function RootTouch(a: Activity, t: TouchAction, x: int, y: int, menu: Rect): (r: Tapped)
    ensures r.consumed <==> t.Down? && a.menuVisible && !Inside(menu, x, y)
    ensures r.consumed ==> r.activity == HidePopover(a)
    ensures !r.consumed ==> r.activity == a
  {
    if t.Down? && a.menuVisible then
      if x < menu.left || x > menu.left + menu.width || y < menu.top || y > menu.top + menu.height then
        Tapped(HidePopover(a), true)
      else Tapped(a, false)
    else Tapped(a, false)
  }

  // ---------------------------------------------------------------------------
  // Padding

  /** The margins `updateWebViewPadding` sets: (left, top, right, bottom). */
  function MarginsFor(top: bool, right: bool): (r: Margins)
    ensures r.left == 0 && r.bottom == 0
    ensures r.top > 0 <==> top
    ensures r.right > 0 <==> right
  {
    Margins(0, if top then TopPaddingDp else 0, if right then RightPaddingDp else 0, 0)
  }

  /** The margins reflect the two switches. */
  predicate PaddingApplied(a: Activity)
  {
    a.margins == MarginsFor(a.topPadding, a.rightPadding)
  }

  function ToggleTopPadding(a: Activity): (r: Activity)
    ensures r.topPadding == !a.topPadding && r.rightPadding == a.rightPadding
    ensures r.margins.top == (if r.topPadding then TopPaddingDp else 0)
    ensures PaddingApplied(a) ==> r.margins.right == a.margins.right
    ensures PaddingApplied(r) && r.menuVisible == a.menuVisible
    ensures r.(topPadding := a.topPadding, margins := a.margins) == a
  {
    var b := a.(topPadding := !a.topPadding);
    b.(margins := MarginsFor(b.topPadding, b.rightPadding))
  }

  function ToggleRightPadding(a: Activity): (r: Activity)
    ensures r.rightPadding == !a.rightPadding && r.topPadding == a.topPadding
    ensures r.margins.right == (if r.rightPadding then RightPaddingDp else 0)
    ensures PaddingApplied(a) ==> r.margins.top == a.margins.top
    ensures PaddingApplied(r) && r.menuVisible == a.menuVisible
    ensures r.(rightPadding := a.rightPadding, margins := a.margins) == a
  {
    var b := a.(rightPadding := !a.rightPadding);
    b.(margins := MarginsFor(b.topPadding, b.rightPadding))
  }

  // ---------------------------------------------------------------------------
  // Popover buttons

  /** A click on one of the popover's buttons: its effect, then the popover hides. */
  function Press(a: Activity, b: Button, h: History): (r: Activity)
    ensures !r.menuVisible
    ensures b.HomeButton? ==> r.web == a.web + [Load(a.homeUrl)]
    ensures b.BackButton? ==> r.web == a.web + (if h.canGoBack then [Back] else [])
    ensures b.ForwardButton? ==> r.web == a.web + (if h.canGoForward then [Forward] else [])
    ensures b.TopPaddingButton? || b.RightPaddingButton? ==> r.web == a.web && PaddingApplied(r)
    ensures b.TopPaddingButton? ==> r.topPadding != a.topPadding && r.rightPadding == a.rightPadding
    ensures b.RightPaddingButton? ==> r.rightPadding != a.rightPadding && r.topPadding == a.topPadding
    ensures !(b.TopPaddingButton? || b.RightPaddingButton?) ==>
      r.topPadding == a.topPadding && r.rightPadding == a.rightPadding && r.margins == a.margins
    ensures r.fingerCount == a.fingerCount && r.threeFinger == a.threeFinger && r.homeUrl == a.homeUrl
  {
    match b
    case HomeButton => HidePopover(a.(web := a.web + [Load(a.homeUrl)]))
    case BackButton => HidePopover(if h.canGoBack then a.(web := a.web + [Back]) else a)
    case ForwardButton => HidePopover(if h.canGoForward then a.(web := a.web + [Forward]) else a)
    case TopPaddingButton => HidePopover(ToggleTopPadding(a))
    case RightPaddingButton => HidePopover(ToggleRightPadding(a))
  }

  datatype BackOutcome = BackOutcome(activity: Activity, finish: bool)

  /** `onBackPressed`: the WebView goes back when it can; otherwise the default back
      handling closes the activity. */
  function BackPressed(a: Activity, h: History): (r: BackOutcome)
    ensures r.finish <==> !h.canGoBack
    ensures r.activity.web == a.web + (if h.canGoBack then [Back] else [])
    ensures r.activity.(web := a.web) == a
  {
    if h.canGoBack then BackOutcome(a.(web := a.web + [Back]), false) else BackOutcome(a, true)
  }

  // ---------------------------------------------------------------------------
  // Commands from the Cast receiver

  /** A UI command posted by the receiver manager, run on the UI thread: `loadUrl`,
      `evaluateJavascript` or `togglePopoverMenuFromCast`. */
  function RunRemote(a: Activity, action: Action): (r: Activity)
    ensures action.Navigate? ==> r == a.(web := a.web + [Load(action.url)])
    ensures action.EvaluateScript? ==> r == a.(web := a.web + [Evaluate(action.script)])
    ensures action.ToggleOverlay? ==> r.menuVisible == !a.menuVisible && r.web == a.web
    ensures action.ToggleOverlay? ==> r == TogglePopover(a)
  {
    match action
    case Navigate(url) => a.(web := a.web + [Load(url)])
    case EvaluateScript(script) => a.(web := a.web + [Evaluate(script)])
    case ToggleOverlay => TogglePopover(a)
  }
}

=== FILE: activity_properties.dfy ===
/** Properties of the activity's state machine over whole event sequences: the state
    invariant every event keeps, the three-finger gesture, the single auto-hide timer and
    the padding switches. */
module ActivityProperties {
  import opened Json
  import opened CastProtocol
  import opened MainActivity

  /** Everything that can happen to the activity. */
  datatype Event =
    | Touch(t: TouchAction)
    | RootTap(t: TouchAction, x: int, y: int, menu: Rect)
    | Timer(task: nat)
    | Click(button: Button, history: History)
    | Remote(action: Action)

  /** Android reports a pointer-down with the new total pointer count, so at least two. */
  predicate Reported(e: Event)
  {
    e.Touch? && e.t.PointerDown? ==> e.t.pointerCount >= 2
  }

  function Step(a: Activity, e: Event): Activity
  {
    match e
    case Touch(t) => HandleMultiTouch(a, t)
    case RootTap(t, x, y, menu) => RootTouch(a, t, x, y, menu).activity
    case Timer(task) => TimerFires(a, task)
    case Click(b, h) => Press(a, b, h)
    case Remote(action) => RunRemote(a, action)
  }

  function Run(a: Activity, events: seq<Event>): Activity
    decreases |events|
  {
    if events == [] then a else Run(Step(a, events[0]), events[1..])
  }

  /** The state invariant: the finger count is never negative and is positive while the
      three-finger flag is set; at most one hide task is queued, and it is the current
      `hideRunnable`; nothing is queued while the popover is hidden. */
  predicate Inv(a: Activity)
  {
    && a.fingerCount >= 0
    && (a.threeFinger ==> a.fingerCount >= 1)
    && (a.hideTask.Some? ==> a.hideTask.value < a.nextTask)
    && (a.hideTask.None? ==> a.pending == map[])
    && (a.hideTask.Some? ==> a.pending.Keys <= {a.hideTask.value})
    && (!a.menuVisible ==> a.pending == map[])
  }

  lemma CreateSatisfiesInv(homeUrl: string, menuVisible: bool, margins: Margins)
    ensures Inv(Create(homeUrl, menuVisible, margins))
  {
  }

  lemma StepKeepsInv(a: Activity, e: Event)
    requires Inv(a) && Reported(e)
    ensures Inv(Step(a, e))
  {
    match e
    case Touch(t) => TouchKeepsInv(a, t);
    case RootTap(t, x, y, menu) => HideKeepsInv(a);
    case Timer(task) =>
      if task in a.pending {
        HideKeepsInv(a.(pending := a.pending - {task}));
      }
    case Click(b, h) => PressKeepsInv(a, b, h);
    case Remote(action) =>
      if action.ToggleOverlay? {
        ToggleKeepsInv(a);
      }
  }

  lemma TouchKeepsInv(a: Activity, t: TouchAction)
    requires Inv(a) && (t.PointerDown? ==> t.pointerCount >= 2)
    ensures Inv(HandleMultiTouch(a, t))
  {
    if IsLift(t) {
      var b := if a.threeFinger && a.fingerCount == 3 then TogglePopover(a) else a;
      if a.threeFinger && a.fingerCount == 3 {
        ToggleKeepsInv(a);
      }
      assert Inv(b);
    }
  }

  lemma PressKeepsInv(a: Activity, b: Button, h: History)
    requires Inv(a)
    ensures Inv(Press(a, b, h)) && Press(a, b, h).pending == map[]
  {
    match b {
      case HomeButton => HideKeepsInv(a.(web := a.web + [Load(a.homeUrl)]));
      case BackButton => HideKeepsInv(if h.canGoBack then a.(web := a.web + [Back]) else a);
      case ForwardButton => HideKeepsInv(if h.canGoForward then a.(web := a.web + [Forward]) else a);
      case TopPaddingButton => HideKeepsInv(ToggleTopPadding(a));
      case RightPaddingButton => HideKeepsInv(ToggleRightPadding(a));
    }
  }

  /** From creation on, through any sequence of events Android can deliver, the finger
      count never goes negative and at most one auto-hide timer is ever pending. */
  lemma {:induction false} RunKeepsInv(a: Activity, events: seq<Event>)
    requires Inv(a)
    requires forall i | 0 <= i < |events| :: Reported(events[i])
    ensures Inv(Run(a, events))
    decreases |events|
  {
    if events != [] {
      StepKeepsInv(a, events[0]);
      RunKeepsInv(Step(a, events[0]), events[1..]);
    }
  }

  // ---------------------------------------------------------------------------
  // The popover and its timer

  /** Showing leaves exactly one pending auto-hide timer, the new one, with the 10 s delay;
      the earlier one is cancelled. */
  lemma ShowLeavesOneTimer(a: Activity)
    requires Inv(a)
    ensures ShowPopover(a).pending == map[a.nextTask := AutoHideDelayMs]
    ensures a.hideTask.Some? ==> a.hideTask.value !in ShowPopover(a).pending
    ensures Inv(ShowPopover(a))
  {
    var kept := if a.hideTask.Some? then a.pending - {a.hideTask.value} else a.pending;
    assert kept == map[];
  }

  /** Hiding leaves no pending timer. */
  lemma HideLeavesNoTimer(a: Activity)
    requires Inv(a)
    ensures HidePopover(a).pending == map[]
    ensures Inv(HidePopover(a))
  {
    HideKeepsInv(a);
  }

  lemma HideKeepsInv(a: Activity)
    requires Inv(a)
    ensures Inv(HidePopover(a)) && HidePopover(a).pending == map[]
  {
    var kept := if a.hideTask.Some? then a.pending - {a.hideTask.value} else a.pending;
    assert kept.Keys == {};
  }

  lemma ToggleKeepsInv(a: Activity)
    requires Inv(a)
    ensures Inv(TogglePopover(a))
  {
    if a.menuVisible {
      HideKeepsInv(a);
    } else {
      ShowLeavesOneTimer(a);
    }
  }

  /** Toggling twice restores visibility, and with it the timer state: none pending when
      hidden, exactly one when visible. */
  lemma ToggleTwice(a: Activity)
    requires Inv(a)
    ensures TogglePopover(TogglePopover(a)).menuVisible == a.menuVisible
    ensures !a.menuVisible ==> TogglePopover(TogglePopover(a)).pending == map[]
    ensures a.menuVisible ==> |TogglePopover(TogglePopover(a)).pending| == 1
    ensures TogglePopover(TogglePopover(a)).(hideTask := a.hideTask, pending := a.pending,
                                             nextTask := a.nextTask) == a
  {
    ToggleKeepsInv(a);
    if a.menuVisible {
      ShowLeavesOneTimer(HidePopover(a));
    } else {
      HideKeepsInv(ShowPopover(a));
    }
  }

  /** When the pending timer fires the popover hides and nothing is left pending. */
  lemma TimerHides(a: Activity)
    requires Inv(a) && a.hideTask.Some? && a.hideTask.value in a.pending
    ensures !TimerFires(a, a.hideTask.value).menuVisible
    ensures TimerFires(a, a.hideTask.value).pending == map[]
    ensures a.menuVisible
  {
  }

  /** Every popover button leaves the popover hidden with no timer pending. */
  lemma ButtonsHide(a: Activity, b: Button, h: History)
    requires Inv(a)
    ensures !Press(a, b, h).menuVisible && Press(a, b, h).pending == map[]
  {
    PressKeepsInv(a, b, h);
  }

  // ---------------------------------------------------------------------------
  // The three-finger gesture

  predicate IsLift(t: TouchAction)
  {
    t.Up? || t.PointerUp?
  }

  /** A touch toggles the popover exactly when it is a lift while the flag is set and three
      fingers are counted. */
  predicate TogglesOn(a: Activity, t: TouchAction)
  {
    IsLift(t) && a.threeFinger && a.fingerCount == 3
  }

  function Touches(a: Activity, ts: seq<TouchAction>): Activity
    decreases |ts|
  {
    if ts == [] then a else Touches(HandleMultiTouch(a, ts[0]), ts[1..])
  }

  /** How many times a sequence of touches toggles the popover. */
  function ToggleCount(a: Activity, ts: seq<TouchAction>): nat
    decreases |ts|
  {
    if ts == [] then 0
    else (if TogglesOn(a, ts[0]) then 1 else 0) + ToggleCount(HandleMultiTouch(a, ts[0]), ts[1..])
  }

  /** Touches change visibility by nothing but their toggles: the popover ends up flipped
      exactly when an odd number of toggles happened. */
  lemma {:induction false} TouchesFlipByToggleParity(a: Activity, ts: seq<TouchAction>)
    ensures Touches(a, ts).menuVisible == (a.menuVisible != (ToggleCount(a, ts) % 2 == 1))
    decreases |ts|
  {
    if ts != [] {
      TouchesFlipByToggleParity(HandleMultiTouch(a, ts[0]), ts[1..]);
    }
  }

  /** With at most two fingers counted, lifting fingers never toggles; the count falls to
      zero at the floor, and the flag is down once it reaches zero. */
  lemma {:induction false} LiftingFromTwoNeverToggles(a: Activity, ups: seq<TouchAction>)
    requires 0 <= a.fingerCount <= 2
    requires forall i | 0 <= i < |ups| :: IsLift(ups[i])
    ensures ToggleCount(a, ups) == 0
    ensures Touches(a, ups).fingerCount == if a.fingerCount >= |ups| then a.fingerCount - |ups| else 0
    ensures |ups| >= a.fingerCount && (|ups| > 0 || !a.threeFinger) ==> !Touches(a, ups).threeFinger
    ensures Touches(a, ups).menuVisible == a.menuVisible
    decreases |ups|
  {
    if ups != [] {
      assert IsLift(ups[0]);
      var b := HandleMultiTouch(a, ups[0]);
      LiftingFromTwoNeverToggles(b, ups[1..]);
    }
  }

  /** The three-finger press: first finger down, second, third. */
  const ThreeFingerPress: seq<TouchAction> := [Down, PointerDown(2), PointerDown(3)]

  /** A three-finger press followed by lifting fingers, one lift event per finger or
      more, toggles the popover exactly once, whatever state it starts from; after the
      third lift the count is zero and the flag is cleared. */
  lemma {:induction false} ThreeFingerGestureTogglesOnce(a: Activity, ups: seq<TouchAction>)
    requires |ups| >= 1
    requires forall i | 0 <= i < |ups| :: IsLift(ups[i])
    ensures ToggleCount(a, ThreeFingerPress + ups) == 1
    ensures Touches(a, ThreeFingerPress + ups).menuVisible == !a.menuVisible
    ensures |ups| >= 3 ==>
      Touches(a, ThreeFingerPress + ups).fingerCount == 0 && !Touches(a, ThreeFingerPress + ups).threeFinger
  {
    var gesture := ThreeFingerPress + ups;
    var a1 := HandleMultiTouch(a, Down);
    var a2 := HandleMultiTouch(a1, PointerDown(2));
    var a3 := HandleMultiTouch(a2, PointerDown(3));
    assert a3.fingerCount == 3 && a3.threeFinger && a3.menuVisible == a.menuVisible;
    var a4 := HandleMultiTouch(a3, ups[0]);
    assert a4.fingerCount == 2 && a4.menuVisible == !a.menuVisible;
    LiftingFromTwoNeverToggles(a4, ups[1..]);
    var g1 := gesture[1..];
    var g2 := g1[1..];
    var g3 := g2[1..];
    assert gesture[0] == Down && g1[0] == PointerDown(2) && g2[0] == PointerDown(3);
    assert g3 == ups;
    assert ToggleCount(a3, ups) == 1;
    assert ToggleCount(a2, g2) == ToggleCount(a3, g3);
    assert ToggleCount(a1, g1) == ToggleCount(a2, g2);
    assert ToggleCount(a, gesture) == ToggleCount(a1, g1);
    assert Touches(a3, ups) == Touches(a4, ups[1..]);
    assert Touches(a, gesture) == Touches(a1, g1) == Touches(a2, g2) == Touches(a3, g3);
  }

  /** The canonical gesture: three fingers down, then all three lifted. */
  lemma CanonicalGesture(a: Activity)
    ensures ToggleCount(a, [Down, PointerDown(2), PointerDown(3), PointerUp, PointerUp, Up]) == 1
    ensures Touches(a, [Down, PointerDown(2), PointerDown(3), PointerUp, PointerUp, Up]).menuVisible
      == !a.menuVisible
  {
    assert [Down, PointerDown(2), PointerDown(3), PointerUp, PointerUp, Up]
      == ThreeFingerPress + [PointerUp, PointerUp, Up];
    ThreeFingerGestureTogglesOnce(a, [PointerUp, PointerUp, Up]);
  }

  /** A two-finger press never toggles, however the fingers are lifted. */
  lemma TwoFingerGestureNeverToggles(a: Activity, ups: seq<TouchAction>)
    requires forall i | 0 <= i < |ups| :: IsLift(ups[i])
    ensures ToggleCount(a, [Down, PointerDown(2)] + ups) == 0
    ensures Touches(a, [Down, PointerDown(2)] + ups).menuVisible == a.menuVisible
  {
    var a2 := HandleMultiTouch(HandleMultiTouch(a, Down), PointerDown(2));
    assert !a2.threeFinger && a2.fingerCount == 2;
    LiftingFromTwoNeverToggles(a2, ups);
    assert ([Down, PointerDown(2)] + ups)[1..][1..] == ups;
  }

  // ---------------------------------------------------------------------------
  // Padding

  /** Toggling a padding switch twice restores the switch, and the margins too once they
      reflect the switches. A top toggle leaves the right margin alone, and a right toggle
      the top margin. */
  lemma PaddingToggleTwice(a: Activity)
    ensures ToggleTopPadding(ToggleTopPadding(a)).topPadding == a.topPadding
    ensures ToggleRightPadding(ToggleRightPadding(a)).rightPadding == a.rightPadding
    ensures PaddingApplied(a) ==> ToggleTopPadding(ToggleTopPadding(a)).margins == a.margins
    ensures PaddingApplied(a) ==> ToggleRightPadding(ToggleRightPadding(a)).margins == a.margins
  {
  }

  /** The margins as a function of the switches: (0, 100 or 0, 200 or 0, 0) dp. */
  lemma MarginsFollowSwitches(top: bool, right: bool)
    ensures MarginsFor(top, right).left == 0 && MarginsFor(top, right).bottom == 0
    ensures MarginsFor(top, right).top == (if top then 100 else 0)
    ensures MarginsFor(top, right).right == (if right then 200 else 0)
  {
  }
}

=== FILE: bridge.dfy ===
/** The object the embedded page calls into. It holds the receiver manager through a weak
    reference, written here as `Option<Manager>`: `None` once the manager is collected. */
module CastBridge {
  import opened Json
  import opened CastProtocol
  import opened ReceiverManager

  const BridgeVersion: string := "1.7"

  /** `getCastStatus`: "ready" exactly when the manager is still reachable and
      initialized, "not_ready" otherwise; both carry the bridge version and the time. */
  function GetCastStatus(manager: Option<Manager>, now: int): (o: Object)
    ensures o.Keys == {"status", "version", "timestamp"}
    ensures o["status"] == Str("ready") <==> manager.Some? && manager.value.initialized
    ensures o["status"] == Str("ready") || o["status"] == Str("not_ready")
    ensures o["version"] == Str(BridgeVersion) && o["timestamp"] == Int(now)
  {
    var status := if manager.Some? && manager.value.initialized then "ready" else "not_ready";
    map["status" := Str(status), "version" := Str(BridgeVersion), "timestamp" := Int(now)]
  }

  /** Through any sequence of manager events from construction on, the page sees "ready"
      exactly while the session listener is registered. */
  lemma StatusReportsListener(events: seq<Event>, now: int)
    ensures GetCastStatus(Some(Run(Create(), events)), now)["status"] == Str("ready")
      <==> Run(Create(), events).listening
  {
    InitializedIffListening(events);
  }

  /** `sendCastMessage`: the page's text goes out verbatim on the receiver's namespace,
      if the manager is still reachable. */
  function SendCastMessage(manager: Option<Manager>, message: string): (r: Option<Manager>)
    ensures r.Some? <==> manager.Some?
    ensures manager.Some? ==> r.value == Send(manager.value, CastNamespace, TextPayload(message))
  {
    if manager.Some? then Some(Send(manager.value, CastNamespace, TextPayload(message))) else None
  }

  const PageReadyType: string := "receiver_page_ready"

  /** `onReceiverReady`: a `receiver_page_ready` notice stamped with `now`. */
  function OnReceiverReady(manager: Option<Manager>, now: int): (r: Option<Manager>)
    ensures r.Some? <==> manager.Some?
    ensures manager.Some? ==> r.value == Send(manager.value, CastNamespace,
      ObjectPayload(map["type" := Str(PageReadyType), "timestamp" := Int(now)]))
  {
    if manager.Some? then
      Some(Send(manager.value, CastNamespace,
        ObjectPayload(map["type" := Str(PageReadyType), "timestamp" := Int(now)])))
    else None
  }

  /** The ready notice is the one message the bridge sends of its own accord: it reaches
      the sender exactly when the manager can send, and leaves the status the page sees
      as it was. */
  lemma ReadyNoticeKeepsStatus(manager: Option<Manager>, sent: int, now: int)
    ensures GetCastStatus(OnReceiverReady(manager, sent), now) == GetCastStatus(manager, now)
    ensures manager.Some? ==>
      |OnReceiverReady(manager, sent).value.outbox|
        == |manager.value.outbox| + (if CanSend(manager.value) then 1 else 0)
  {
  }

  /** `logMessage` writes to the log only. */
  function LogMessage(manager: Option<Manager>, message: string): (r: Option<Manager>)
    ensures r == manager
  {
    manager
  }

  /** Whatever the page sends reaches the sender as it was written, and only then: the
      outbox grows by that one entry when the manager can send, and not at all otherwise. */
  lemma PageMessagesForwardedVerbatim(m: Manager, message: string)
    ensures CanSend(m) ==>
      SendCastMessage(Some(m), message).value.outbox
        == m.outbox + [Outbound(CastNamespace, TextPayload(message))]
    ensures !CanSend(m) ==> SendCastMessage(Some(m), message) == Some(m)
    ensures SendCastMessage(None, message) == None
  {
  }
}

=== FILE: handler.dfy ===
/** The Cast command dispatcher: one inbound message in, at most one UI action and
    exactly one reply out. Dispatch is split into reading the message as a typed command
    (`Decode`) and carrying the command out (`Execute`); every rejection becomes an error
    reply with no action, exactly as each branch of the switch in the handler does. */
module MessageHandler {
  import opened Json
  import opened CastProtocol

  const InvalidJson: string := "Invalid JSON format"
  const UnknownTypePrefix: string := "Unknown message type: "
  const MissingUrl: string := "Missing or invalid URL parameter"
  const BlankUrl: string := "URL parameter is required"
  const UrlLoaded: string := "URL loaded successfully"
  const MissingScript: string := "Missing or invalid JavaScript parameter"
  const BlankScript: string := "JavaScript parameter is required"
  const ScriptExecuted: string := "JavaScript executed successfully"
  const NavigationToggled: string := "Navigation toggled successfully"

  /** The five message types the dispatcher knows. */
  const KnownTypes: set<string> := {"load_url", "execute_js", "toggle_navigation", "get_status", "ping"}

  /** The fields the dispatcher ever reads. */
  const ReadFields: set<string> := {"type", "url", "javascript", "data"}

  /** A command the dispatcher accepts, as a tagged union. */
  datatype Command =
    | LoadUrl(url: string)
    | ExecuteJs(script: string)
    | ToggleNavigation
    | GetStatus
    | Ping(data: Option<Value>)

  /** Reading a message object: a command, or the error text of the reply that rejects it. */
  datatype Decoded = Accepted(command: Command) | Rejected(error: string)

  /** The result of dispatching one message: the UI action to perform (if any), then the
      one reply to send. */
  datatype Dispatch = Dispatch(action: Option<Action>, reply: Reply)

  /** `optString("type", "")`: a missing type reads as the empty string. */
  function MessageType(o: Object): (t: string)
    ensures "type" !in o ==> t == ""
    ensures "type" in o ==> t == Text(o["type"])
    ensures "type" in o && o["type"].Str? ==> t == o["type"].s
  {
    match FieldText(o, "type")
    case Some(t) => t
    case None => ""
  }

  /** The commands that can be accepted: a URL or script that is not blank after trimming. */
  predicate WellFormed(c: Command)
  {
    match c
    case LoadUrl(u) => !Blank(u)
    case ExecuteJs(s) => !Blank(s)
    case _ => true
  }

  /** A required text field as `getString` followed by the blank check sees it. */
  datatype TextField = Missing | BlankText | Present(text: string)

  function ReadRequired(o: Object, key: string): (f: TextField)
    ensures f.Missing? <==> key !in o
    ensures f.BlankText? <==> key in o && Blank(Text(o[key]))
    ensures f.Present? ==> f.text == Text(o[key]) && !Blank(f.text)
  {
    match FieldText(o, key)
    case None => Missing
    case Some(t) => if Blank(t) then BlankText else Present(t)
  }

  function Decode(o: Object): (d: Decoded)
    ensures d.Accepted? ==> WellFormed(d.command)
    ensures MessageType(o) !in KnownTypes ==> d == Rejected(UnknownTypePrefix + MessageType(o))
    ensures d.Rejected? && MessageType(o) in KnownTypes ==>
      MessageType(o) == "load_url" || MessageType(o) == "execute_js"
    ensures d.Accepted? && d.command.Ping? ==> (d.command.data.Some? <==> "data" in o)
  {
    var t := MessageType(o);
    if t == "load_url" then
      match ReadRequired(o, "url")
      case Missing => Rejected(MissingUrl)
      case BlankText => Rejected(BlankUrl)
      case Present(u) => Accepted(LoadUrl(u))
    else if t == "execute_js" then
      match ReadRequired(o, "javascript")
      case Missing => Rejected(MissingScript)
      case BlankText => Rejected(BlankScript)
      case Present(js) => Accepted(ExecuteJs(js))
    else if t == "toggle_navigation" then
      Accepted(ToggleNavigation)
    else if t == "get_status" then
      Accepted(GetStatus)
    else if t == "ping" then
      Accepted(Ping(if "data" in o then Some(o["data"]) else None))
    else
      Rejected(UnknownTypePrefix + t)
  }

  /** Carries out an accepted command: the action handed to the receiver manager, then
      the reply. */
  function Execute(c: Command): (d: Dispatch)
    requires WellFormed(c)
    ensures d.action.Some? ==> d.reply.Success?
    ensures d.action.Some? <==> c.LoadUrl? || c.ExecuteJs? || c.ToggleNavigation?
    ensures c.LoadUrl? ==> d.action == Some(Navigate(c.url))
    ensures c.ExecuteJs? ==> d.action == Some(EvaluateScript(c.script))
    ensures !d.reply.Failure?
  {
    match c
    case LoadUrl(u) => Dispatch(Some(Navigate(u)), Success(UrlLoaded))
    case ExecuteJs(js) => Dispatch(Some(EvaluateScript(js)), Success(ScriptExecuted))
    case ToggleNavigation => Dispatch(Some(ToggleOverlay), Success(NavigationToggled))
    case GetStatus => Dispatch(None, StatusReport)
    case Ping(data) => Dispatch(None, Pong(data))
  }

  /** `handleMessage`: the namespace argument plays no part in the outcome. */
  function Handle(namespace: string, msg: Inbound): (d: Dispatch)
    ensures msg.Unparseable? ==> d == Dispatch(None, Failure(InvalidJson))
    ensures d.action.Some? ==> d.reply.Success?
    ensures d.reply.Failure? <==> msg.Unparseable? || Decode(msg.fields).Rejected?
  {
    match msg
    case Unparseable => Dispatch(None, Failure(InvalidJson))
    case Message(o) =>
      match Decode(o)
      case Rejected(e) => Dispatch(None, Failure(e))
      case Accepted(c) => Execute(c)
  }

  /** The object a sender builds for a command; `Decode` reads it back. */
  function Encode(c: Command): Object
  {
    match c
    case LoadUrl(u) => map["type" := Str("load_url"), "url" := Str(u)]
    case ExecuteJs(js) => map["type" := Str("execute_js"), "javascript" := Str(js)]
    case ToggleNavigation => map["type" := Str("toggle_navigation")]
    case GetStatus => map["type" := Str("get_status")]
    case Ping(None) => map["type" := Str("ping")]
    case Ping(Some(v)) => map["type" := Str("ping"), "data" := v]
  }

  // ---------------------------------------------------------------------------
  // Properties of the dispatcher

  /** Every well-formed command survives the trip through its JSON object, and the
      commands that can be accepted are exactly the well-formed ones. */
  lemma DecodeEncode(c: Command)
    requires WellFormed(c)
    ensures Decode(Encode(c)) == Accepted(c)
    ensures forall ns :: Handle(ns, Message(Encode(c))) == Execute(c)
  {
    EncodedDecodes(c);
    forall ns
      ensures Handle(ns, Message(Encode(c))) == Execute(c)
    {
      AcceptedIsExecuted(ns, Encode(c));
    }
  }

  lemma EncodedDecodes(c: Command)
    requires WellFormed(c)
    ensures Decode(Encode(c)) == Accepted(c)
  {
    EncodedTypeRead(c);
    var o := Encode(c);
    match c {
      case LoadUrl(u) =>
        assert ReadRequired(o, "url") == Present(u);
        assert Decode(o) == Accepted(c);
      case ExecuteJs(js) =>
        assert ReadRequired(o, "javascript") == Present(js);
        assert Decode(o) == Accepted(c);
      case ToggleNavigation =>
        assert Decode(o) == Accepted(c);
      case GetStatus =>
        assert Decode(o) == Accepted(c);
      case Ping(data) =>
        assert data.Some? <==> "data" in o;
        assert Decode(o) == Accepted(c);
    }
  }

  /** An accepted message is answered by carrying out its command. */
  lemma AcceptedIsExecuted(namespace: string, o: Object)
    requires Decode(o).Accepted?
    ensures Handle(namespace, Message(o)) == Execute(Decode(o).command)
  {
  }

  /** The type a sender writes for a command is the type the dispatcher reads. */
  lemma EncodedTypeRead(c: Command)
    ensures MessageType(Encode(c)) == match c
      case LoadUrl(_) => "load_url"
      case ExecuteJs(_) => "execute_js"
      case ToggleNavigation => "toggle_navigation"
      case GetStatus => "get_status"
      case Ping(_) => "ping"
  {
  }

  /** Only the fields `type`, `url`, `javascript` and `data` are ever read: objects that
      agree on them are dispatched alike. */
  lemma OnlyReadFieldsMatter(o: Object, o': Object)
    requires forall k | k in ReadFields :: (k in o <==> k in o') && (k in o ==> o[k] == o'[k])
    ensures Decode(o) == Decode(o')
  {
    assert FieldText(o, "type") == FieldText(o', "type") by {
      assert "type" in ReadFields;
    }
    assert FieldText(o, "url") == FieldText(o', "url") by {
      assert "url" in ReadFields;
    }
    assert FieldText(o, "javascript") == FieldText(o', "javascript") by {
      assert "javascript" in ReadFields;
    }
    assert "data" in ReadFields;
  }

  /** `load_url`: a missing `url` wins over a blank one; only a non-blank `url`
      navigates, and to the untrimmed text. */
  lemma LoadUrlOutcomes(ns: string, o: Object)
    requires MessageType(o) == "load_url"
    ensures "url" !in o ==> Handle(ns, Message(o)) == Dispatch(None, Failure(MissingUrl))
    ensures "url" in o && Blank(Text(o["url"])) ==>
      Handle(ns, Message(o)) == Dispatch(None, Failure(BlankUrl))
    ensures "url" in o && !Blank(Text(o["url"])) ==>
      Handle(ns, Message(o)) == Dispatch(Some(Navigate(Text(o["url"]))), Success(UrlLoaded))
  {
  }

  /** `execute_js`: the same three outcomes on the `javascript` field. */
  lemma ExecuteJsOutcomes(ns: string, o: Object)
    requires MessageType(o) == "execute_js"
    ensures "javascript" !in o ==> Handle(ns, Message(o)) == Dispatch(None, Failure(MissingScript))
    ensures "javascript" in o && Blank(Text(o["javascript"])) ==>
      Handle(ns, Message(o)) == Dispatch(None, Failure(BlankScript))
    ensures "javascript" in o && !Blank(Text(o["javascript"])) ==>
      Handle(ns, Message(o)) ==
        Dispatch(Some(EvaluateScript(Text(o["javascript"]))), Success(ScriptExecuted))
  {
  }

  /** `toggle_navigation` always asks for exactly one overlay toggle and succeeds. */
  lemma ToggleNavigationOutcome(ns: string, o: Object)
    requires MessageType(o) == "toggle_navigation"
    ensures Handle(ns, Message(o)) == Dispatch(Some(ToggleOverlay), Success(NavigationToggled))
  {
  }

  /** `get_status` performs no action and its reply does not depend on anything else in
      the message. */
  lemma GetStatusOutcome(ns: string, o: Object, ns': string, o': Object)
    requires MessageType(o) == "get_status" && MessageType(o') == "get_status"
    ensures Handle(ns, Message(o)) == Handle(ns', Message(o')) == Dispatch(None, StatusReport)
  {
  }

  /** `ping` answers with a pong that carries `data` exactly when the request did, and
      then the same value. */
  lemma PingOutcome(ns: string, o: Object)
    requires MessageType(o) == "ping"
    ensures Handle(ns, Message(o)).action.None?
    ensures Handle(ns, Message(o)).reply.Pong?
    ensures Handle(ns, Message(o)).reply.data.Some? <==> "data" in o
    ensures "data" in o ==> Handle(ns, Message(o)).reply.data.value == o["data"]
  {
  }

  /** Any other type, the empty one of a message without `type` included, is refused by
      name. */
  lemma UnknownTypeOutcome(ns: string, o: Object)
    requires MessageType(o) !in KnownTypes
    ensures Handle(ns, Message(o)) == Dispatch(None, Failure(UnknownTypePrefix + MessageType(o)))
    ensures "type" !in o ==> Handle(ns, Message(o)) == Dispatch(None, Failure(UnknownTypePrefix))
  {
  }

  /** The namespace a message arrived on never changes how it is handled. */
  lemma NamespaceIgnored(ns: string, ns': string, msg: Inbound)
    ensures Handle(ns, msg) == Handle(ns', msg)
  {
  }
}

=== FILE: json.dfy ===
/** JSON values as the receiver sees them once Android's org.json has parsed a message,
    and the two string operations the dispatcher applies to them: reading a field as
    text and Java's `String.trim`. Parsing and serialisation themselves are not modelled. */
module Json {

  datatype Option<+T> = None | Some(value: T)

  /** A parsed JSON value. Integers keep their value; doubles, arrays and nested objects
      carry the text org.json renders for them, since floating point and nested
      serialisation are outside the model. */
  datatype Value =
    | Str(s: string)
    | Int(i: int)
    | Bool(b: bool)
    | Null
    | Other(rendering: string)

  /** A JSON object: field name to value. */
  type Object = map<string, Value>

  /** The text Android's org.json produces when a field is read as a string: a string is
      returned as is, anything else through `String.valueOf`, and JSON null as "null". */
  function Text(v: Value): (r: string)
    ensures v.Str? ==> r == v.s
    ensures v.Int? ==> r == Decimal(v.i) && ParseDecimal(r) == v.i
    ensures v.Bool? ==> r == (if v.b then "true" else "false")
    ensures v.Null? ==> r == "null"
    ensures v.Other? ==> r == v.rendering
  {
    match v
    case Str(s) => s
    case Int(i) => DecimalRoundTrip(i); Decimal(i)
    case Bool(b) => if b then "true" else "false"
    case Null => "null"
    case Other(t) => t
  }

  /** Reads a field as text: `None` when the field is absent (where `getString` throws and
      `optString` falls back); every present field, JSON null included, has a text. */
  function FieldText(o: Object, key: string): (r: Option<string>)
    ensures r.None? <==> key !in o
    ensures r.Some? ==> r.value == Text(o[key])
  {
    if key in o then Some(Text(o[key])) else None
  }

  // ---------------------------------------------------------------------------
  // String.trim

  /** `String.trim` removes every leading and trailing character at or below U+0020. */
  predicate Trimmable(c: char)
  {
    c <= ' '
  }

  /** The first index at or after `k` whose character is not trimmable, or `|s|`. */
  function SkipLeading(s: string, k: nat): (e: nat)
    requires k <= |s|
    ensures k <= e <= |s|
    ensures forall i | k <= i < e :: Trimmable(s[i])
    ensures e < |s| ==> !Trimmable(s[e])
    decreases |s| - k
  {
    if k < |s| && Trimmable(s[k]) then SkipLeading(s, k + 1) else k
  }

  /** Scanning down from `e` towards `lo`: the end of `s[lo..e]` once its trailing
      trimmable characters are dropped. */
  function SkipTrailing(s: string, lo: nat, e: nat): (r: nat)
    requires lo <= e <= |s|
    ensures lo <= r <= e
    ensures forall i | r <= i < e :: Trimmable(s[i])
    ensures r > lo ==> !Trimmable(s[r - 1])
    decreases e
  {
    if e > lo && Trimmable(s[e - 1]) then SkipTrailing(s, lo, e - 1) else e
  }

  /** `r` occurs in `s` starting at position `k`. */
  predicate InfixAt(r: string, s: string, k: int)
  {
    0 <= k <= |s| - |r| && r == s[k..k + |r|]
  }

  /** `r` is what remains of `s` once the first `k` and the last `|s| - k - |r|`
      characters are dropped, and every dropped character is trimmable. */
  predicate TrimmedAt(r: string, s: string, k: int)
  {
    && InfixAt(r, s, k)
    && (forall i | 0 <= i < k :: Trimmable(s[i]))
    && (forall i | k + |r| <= i < |s| :: Trimmable(s[i]))
  }

  /** Java's `String.trim`: an infix of `s` that neither starts nor ends with a trimmable
      character, obtained by dropping only trimmable characters at either end. */
  function Trim(s: string): (r: string)
    ensures exists k :: TrimmedAt(r, s, k)
    ensures r != [] ==> !Trimmable(r[0]) && !Trimmable(r[|r| - 1])
  {
    var b := SkipLeading(s, 0);
    var e := SkipTrailing(s, b, |s|);
    assert TrimmedAt(s[b..e], s, b);
    s[b..e]
  }

  /** `s.trim().isEmpty()` */
  predicate Blank(s: string)
  {
    Trim(s) == []
  }

  /** A string is blank exactly when every character in it is trimmable. */
  lemma BlankIffAllTrimmable(s: string)
    ensures Blank(s) <==> forall i | 0 <= i < |s| :: Trimmable(s[i])
  {
    var r := Trim(s);
    var k :| TrimmedAt(r, s, k);
    if r != [] {
      assert r[0] == s[k];
    }
  }

  // ---------------------------------------------------------------------------
  // Decimal rendering of integers (String.valueOf on an Integer or Long)

  function DigitChar(d: nat): (c: char)
    requires d < 10
    ensures '0' <= c <= '9' && DigitValue(c) == d
  {
    "0123456789"[d]
  }

  function DigitValue(c: char): nat
    requires '0' <= c <= '9'
  {
    (c - '0') as nat
  }

  predicate AllDigits(s: string)
  {
    forall i | 0 <= i < |s| :: '0' <= s[i] <= '9'
  }

  /** Decimal digits of a natural number, most significant first, without leading zeros. */
  function Digits(n: nat): (s: string)
    ensures |s| >= 1 && AllDigits(s)
    ensures |s| > 1 ==> s[0] != '0'
    decreases n
  {
    if n < 10 then [DigitChar(n)] else Digits(n / 10) + [DigitChar(n % 10)]
  }

  /** The number a string of decimal digits denotes. */
  function DigitsValue(s: string): nat
    requires AllDigits(s)
  {
    if s == [] then 0 else DigitsValue(s[..|s| - 1]) * 10 + DigitValue(s[|s| - 1])
  }

  /** `String.valueOf` on an integer: a minus sign exactly for a negative number, then its
      decimal digits without leading zeros. */
  function Decimal(i: int): (s: string)
    ensures |s| >= 1 && !Trimmable(s[0])
    ensures s[0] == '-' <==> i < 0
    ensures i < 0 ==> |s| >= 2 && AllDigits(s[1..]) && (|s| > 2 ==> s[1] != '0')
    ensures i >= 0 ==> AllDigits(s) && (|s| > 1 ==> s[0] != '0')
  {
    if i < 0 then "-" + Digits(-i) else Digits(i)
  }

  /** Reads back what `Decimal` writes. */
  function ParseDecimal(s: string): int
    requires |s| >= 1
    requires s[0] == '-' ==> AllDigits(s[1..])
    requires s[0] != '-' ==> AllDigits(s)
  {
    if s[0] == '-' then 0 - DigitsValue(s[1..]) as int else DigitsValue(s)
  }

  lemma {:induction false} DigitsRoundTrip(n: nat)
    ensures DigitsValue(Digits(n)) == n
    decreases n
  {
    if n >= 10 {
      var q, r := n / 10, n % 10;
      DigitsRoundTrip(q);
      var s := Digits(n);
      assert s == Digits(q) + [DigitChar(r)];
      assert s[..|s| - 1] == Digits(q);
      assert DigitValue(s[|s| - 1]) == r;
      assert DigitsValue(s) == q * 10 + r;
    }
  }

  /** Rendering an integer loses nothing: distinct integers have distinct texts. */
  lemma DecimalRoundTrip(i: int)
    ensures ParseDecimal(Decimal(i)) == i
  {
    if i < 0 {
      NegativeRoundTrip(i);
    } else {
      DigitsRoundTrip(i);
    }
  }

  lemma {:induction false} NegativeRoundTrip(i: int)
    requires i < 0
    ensures ParseDecimal(Decimal(i)) == i
  {
    var n: nat := -i;
    var d := Digits(n);
    DigitsRoundTrip(n);
    var s := Decimal(i);
    assert s == "-" + d;
    assert s[1..] == d;
    assert DigitsValue(s[1..]) == n;
    assert ParseDecimal(s) == 0 - n;
  }

  /** Every value other than a string or a pre-rendered one reads as non-blank text. */
  lemma ScalarTextNotBlank(v: Value)
    requires v.Int? || v.Bool? || v.Null?
    ensures !Blank(Text(v))
  {
    BlankIffAllTrimmable(Text(v));
    assert !Trimmable(Text(v)[0]);
  }
}

=== FILE: manager.dfy ===
/** The Cast receiver manager: a record of what it knows about the Cast SDK, the attached
    activity and the current session, plus the log of every message it has sent. Calls
    into the Cast SDK become parameters: the outcome of `initialize`, whether removing the
    session listener throws, the current session, whether registering the message
    callback throws. */
module ReceiverManager {
  import opened Json
  import opened CastProtocol
  import MessageHandler

  /** The SDK's current Cast session as `getCurrentCastSession` reports it. */
  datatype Session = NoSession | Session(connected: bool)

  /** What is sent: a JSON object built by the receiver, or text forwarded verbatim. */
  datatype Payload = ObjectPayload(fields: Object) | TextPayload(text: string)

  datatype Outbound = Outbound(namespace: string, payload: Payload)

  /** How the SDK calls in `initialize` end: obtaining the Cast context (or its session
      manager) throws; adding the session listener throws; or both succeed. */
  datatype InitOutcome = ContextUnavailable | ListenerRejected | ListenerAdded

  datatype Manager = Manager(
    hasSessionManager: bool,    // the `sessionManager` field is set
    initialized: bool,          // `isInitialized`
    listening: bool,            // the session listener is registered with the SDK
    activityAttached: bool,     // the weak reference to the activity still yields it
    session: Session,
    channels: set<string>,      // namespaces with a message callback on the session
    outbox: seq<Outbound>)      // every message sent to the Cast sender, in order

  /** The constructor. */
  function Create(): (m: Manager)
    ensures !m.initialized && !m.listening && !m.hasSessionManager && !m.activityAttached
    ensures m.outbox == [] && m.channels == {}
  {
    Manager(false, false, false, false, NoSession, {}, [])
  }

  /** The manager's consistency: the listener is registered exactly while `isInitialized`
      holds, and only through a session manager. */
  predicate Valid(m: Manager)
  {
    (m.listening <==> m.initialized) && (m.listening ==> m.hasSessionManager)
  }

  /** `initialize`: `isInitialized` becomes true only when every SDK call succeeds; a
      failure leaves it as it was. */
  function Initialize(m: Manager, outcome: InitOutcome): (r: Manager)
    ensures r.initialized <==> m.initialized || outcome == ListenerAdded
    ensures outcome != ContextUnavailable ==> r.hasSessionManager
    ensures r.outbox == m.outbox && r.activityAttached == m.activityAttached
    ensures outcome == ContextUnavailable ==> r == m
    ensures outcome == ListenerAdded ==> r.listening
    ensures r.(hasSessionManager := m.hasSessionManager, initialized := m.initialized,
               listening := m.listening) == m
  {
    match outcome
    case ContextUnavailable => m
    case ListenerRejected => m.(hasSessionManager := true)
    case ListenerAdded => m.(hasSessionManager := true, listening := true, initialized := true)
  }

  /** `destroy`: `isInitialized` is cleared after the listener is removed, so it stays set
      when the removal throws. */
  function Destroy(m: Manager, removalFails: bool): (r: Manager)
    ensures !r.initialized <==> !m.initialized || !m.hasSessionManager || !removalFails
    ensures r.listening ==> m.listening
    ensures m.hasSessionManager && !removalFails ==> !r.listening
    ensures r.outbox == m.outbox && r.activityAttached == m.activityAttached
    ensures m.hasSessionManager && removalFails ==> r == m
    ensures r.(initialized := m.initialized, listening := m.listening) == m
  {
    if !m.hasSessionManager then m.(initialized := false)
    else if removalFails then m
    else m.(initialized := false, listening := false)
  }

  /** `setMainActivity` */
  function AttachActivity(m: Manager): (r: Manager)
    ensures r.activityAttached && r.(activityAttached := m.activityAttached) == m
  {
    m.(activityAttached := true)
  }

  /** The activity behind the weak reference is collected. */
  function ActivityCollected(m: Manager): (r: Manager)
    ensures !r.activityAttached && r.(activityAttached := m.activityAttached) == m
  {
    m.(activityAttached := false)
  }

  /** The SDK's current session changes (connects, disconnects, ends). */
  function SessionChanged(m: Manager, s: Session): (r: Manager)
    ensures r.session == s && r.(session := m.session) == m
  {
    m.(session := s)
  }

  /** A send reaches the sender only through a session manager whose current session
      exists and is connected; otherwise the failure is swallowed. */
  predicate CanSend(m: Manager)
  {
    m.hasSessionManager && m.session == Session(true)
  }

  /** `sendMessageToCastSender` */
  function Send(m: Manager, namespace: string, p: Payload): (r: Manager)
    ensures CanSend(m) ==> r.outbox == m.outbox + [Outbound(namespace, p)]
    ensures !CanSend(m) ==> r.outbox == m.outbox
    ensures r.(outbox := m.outbox) == m
  {
    if CanSend(m) then m.(outbox := m.outbox + [Outbound(namespace, p)]) else m
  }

  /** `loadUrlFromCast`: the UI command posted to the activity, if one is attached. */
  function LoadUrlFromCast(m: Manager, url: string): (posted: Option<Action>)
    ensures posted.Some? <==> m.activityAttached
    ensures posted.Some? ==> posted.value.Navigate? && posted.value.url == url
  {
    if m.activityAttached then Some(Navigate(url)) else None
  }

  /** `executeJavaScriptFromCast` */
  function ExecuteJavaScriptFromCast(m: Manager, script: string): (posted: Option<Action>)
    ensures posted.Some? <==> m.activityAttached
    ensures posted.Some? ==> posted.value.EvaluateScript? && posted.value.script == script
  {
    if m.activityAttached then Some(EvaluateScript(script)) else None
  }

  /** `toggleNavigationFromCast` */
  function ToggleNavigationFromCast(m: Manager): (posted: Option<Action>)
    ensures posted.Some? <==> m.activityAttached
    ensures posted.Some? ==> posted.value == ToggleOverlay
  {
    if m.activityAttached then Some(ToggleOverlay) else None
  }

  /** Hands an action the dispatcher asked for to the matching UI entry point. */
  function Perform(m: Manager, a: Action): (posted: Option<Action>)
    ensures posted.Some? <==> m.activityAttached
    ensures posted.Some? ==> posted.value == a
  {
    match a
    case Navigate(url) => LoadUrlFromCast(m, url)
    case EvaluateScript(script) => ExecuteJavaScriptFromCast(m, script)
    case ToggleOverlay => ToggleNavigationFromCast(m)
  }

  /** The manager after a message, and the UI command it posted to the activity. */
  datatype Handled = Handled(manager: Manager, posted: Option<Action>)

  /** `handleCastMessage`: the message goes to the dispatcher unchanged; its action is
      handed on, then its one reply is sent on the receiver's namespace at time `now`. */
  function HandleCastMessage(m: Manager, namespace: string, msg: Inbound, now: int): (h: Handled)
    ensures |h.manager.outbox| == |m.outbox| + (if CanSend(m) then 1 else 0)
    ensures h.manager.outbox[..|m.outbox|] == m.outbox
    ensures CanSend(m) ==> h.manager.outbox[|m.outbox|].namespace == CastNamespace
    ensures h.manager.(outbox := m.outbox) == m
    ensures h.posted == (if m.activityAttached then MessageHandler.Handle(namespace, msg).action else None)
    ensures CanSend(m) ==>
      h.manager.outbox[|m.outbox|].payload
        == ObjectPayload(ReplyObject(MessageHandler.Handle(namespace, msg).reply, now))
  {
    var d := MessageHandler.Handle(namespace, msg);
    var posted := if d.action.Some? then Perform(m, d.action.value) else None;
    Handled(Send(m, CastNamespace, ObjectPayload(ReplyObject(d.reply, now))), posted)
  }

  const ReceiverReady: Object := map["type" := Str("receiver_ready")]

  /** `onSessionStarted`. The SDK calls only registered listeners. The message callback is
      set on the receiver's namespace and a `receiver_ready` notice is sent; if setting the
      callback throws, nothing else happens. */
  function OnSessionStarted(m: Manager, registrationFails: bool): (r: Manager)
    ensures m.listening && !registrationFails ==>
      && r.channels == m.channels + {CastNamespace}
      && r.outbox == m.outbox + (if CanSend(m) then [Outbound(CastNamespace, ObjectPayload(ReceiverReady))] else [])
    ensures r.(channels := m.channels, outbox := m.outbox) == m
    ensures !m.listening || registrationFails ==> r == m
  {
    if !m.listening || registrationFails then m
    else Send(m.(channels := m.channels + {CastNamespace}), CastNamespace, ObjectPayload(ReceiverReady))
  }

  // ---------------------------------------------------------------------------
  // Lifecycle

  /** What can happen to the manager, from outside or from the SDK. */
  datatype Event =
    | Init(outcome: InitOutcome)
    | Teardown(removalFails: bool)
    | Attach
    | Collected
    | SessionIs(s: Session)
    | Started(registrationFails: bool)
    | Received(namespace: string, msg: Inbound, now: int)

  function Step(m: Manager, e: Event): Manager
  {
    match e
    case Init(outcome) => Initialize(m, outcome)
    case Teardown(fails) => Destroy(m, fails)
    case Attach => AttachActivity(m)
    case Collected => ActivityCollected(m)
    case SessionIs(s) => SessionChanged(m, s)
    case Started(fails) => OnSessionStarted(m, fails)
    case Received(ns, msg, now) =>
      if ns in m.channels then HandleCastMessage(m, ns, msg, now).manager else m
  }

  function Run(m: Manager, events: seq<Event>): Manager
    decreases |events|
  {
    if events == [] then m else Run(Step(m, events[0]), events[1..])
  }

  /** `isInitialized` tells exactly whether the session listener is registered, through any
      sequence of events from construction on; so `onSessionStarted` runs only while it
      holds. */
  lemma {:induction false} InitializedIffListening(events: seq<Event>)
    ensures Valid(Run(Create(), events))
  {
    RunKeepsValid(Create(), events);
  }

  lemma {:induction false} RunKeepsValid(m: Manager, events: seq<Event>)
    requires Valid(m)
    ensures Valid(Run(m, events))
    decreases |events|
  {
    if events != [] {
      var m' := Step(m, events[0]);
      assert Valid(m');
      RunKeepsValid(m', events[1..]);
    }
  }

  /** The SDK delivers a message only to a callback registered on its namespace: a
      message is answered exactly when its namespace has one and the session is
      connected, and otherwise leaves the manager as it was. */
  lemma OnlyRegisteredNamespacesAnswered(m: Manager, ns: string, msg: Inbound, now: int)
    ensures |Step(m, Received(ns, msg, now)).outbox| == |m.outbox| + 1 <==> ns in m.channels && CanSend(m)
    ensures ns !in m.channels ==> Step(m, Received(ns, msg, now)) == m
  {
  }

  /** Messages are only ever appended: the log of sent messages grows by one per reply at
      most, and earlier entries never change. */
  lemma {:induction false} OutboxOnlyGrows(m: Manager, events: seq<Event>)
    ensures |Run(m, events).outbox| >= |m.outbox|
    ensures Run(m, events).outbox[..|m.outbox|] == m.outbox
    decreases |events|
  {
    if events != [] {
      var m' := Step(m, events[0]);
      assert m'.outbox[..|m.outbox|] == m.outbox;
      OutboxOnlyGrows(m', events[1..]);
      assert Run(m, events).outbox[..|m'.outbox|][..|m.outbox|] == Run(m, events).outbox[..|m.outbox|];
    }
  }
}

=== FILE: protocol.dfy ===
/** The Cast message channel of the receiver: the fixed namespace, what arrives on it,
    the UI actions a command can ask for and the replies sent back, with the JSON
    object each reply is serialised from. */
module CastProtocol {
  import opened Json

  /** The one namespace every reply and notification is sent on. */
  const CastNamespace: string := "urn:x-cast:com.adamucf.riptide"

  const StatusVersion: string := "1.9"
  const AppName: string := "Riptide"

  /** What arrives on the channel: text that org.json cannot read as a JSON object, or
      the object it reads. */
  datatype Inbound = Unparseable | Message(fields: Object)

  /** A UI action a command asks the attached activity to perform. */
  datatype Action =
    | Navigate(url: string)
    | EvaluateScript(script: string)
    | ToggleOverlay

  /** A reply to one inbound message. */
  datatype Reply =
    | Success(message: string)
    | Failure(error: string)
    | StatusReport
    | Pong(data: Option<Value>)

  /** The JSON object a reply is serialised from, stamped with the send time `now`
      (milliseconds since the epoch, read from the clock by the caller). */
  function ReplyObject(r: Reply, now: int): (o: Object)
    ensures "type" in o && "timestamp" in o && o["timestamp"] == Int(now)
    ensures o["type"] == Str("response") <==> r.Success? || r.Failure?
    ensures r.Success? ==>
      && o.Keys == {"type", "status", "message", "timestamp"}
      && o["status"] == Str("success") && o["message"] == Str(r.message)
    ensures r.Failure? ==>
      && o.Keys == {"type", "status", "error", "timestamp"}
      && o["status"] == Str("error") && o["error"] == Str(r.error)
    ensures r.StatusReport? ==>
      && o.Keys == {"type", "receiver_ready", "version", "app_name", "timestamp"} + CapabilityFlags
      && o["type"] == Str("status_response")
      && o["receiver_ready"] == Bool(true)
      && o["version"] == Str(StatusVersion)
      && o["app_name"] == Str(AppName)
      && forall flag | flag in CapabilityFlags :: flag in o && o[flag] == Bool(true)
    ensures r.Pong? ==>
      && o.Keys == {"type", "timestamp"} + (if r.data.Some? then {"data"} else {})
      && o["type"] == Str("pong")
      && ("data" in o <==> r.data.Some?)
      && (r.data.Some? ==> o["data"] == r.data.value)
      && "status" !in o
  {
    match r
    case Success(m) =>
      map["type" := Str("response"), "status" := Str("success"), "message" := Str(m),
          "timestamp" := Int(now)]
    case Failure(e) =>
      map["type" := Str("response"), "status" := Str("error"), "error" := Str(e),
          "timestamp" := Int(now)]
    case StatusReport =>
      map["type" := Str("status_response"), "receiver_ready" := Bool(true),
          "version" := Str(StatusVersion), "app_name" := Str(AppName),
          "distraction_optimized" := Bool(true), "immersive_mode" := Bool(true),
          "enhanced_navigation" := Bool(true), "cast_status_page" := Bool(true),
          "timestamp" := Int(now)]
    case Pong(data) =>
      var pong := map["type" := Str("pong"), "timestamp" := Int(now)];
      if data.Some? then pong["data" := data.value] else pong
  }

  /** The capability flags a status report sets to true. */
  const CapabilityFlags: set<string> :=
    {"distraction_optimized", "immersive_mode", "enhanced_navigation", "cast_status_page"}
}

=== FILE: remote_control.dfy ===
/** The receiver end to end: a Cast message goes through the manager and the dispatcher,
    the reply goes back to the sender, and the UI command the manager posts runs on the
    activity. Posting to the UI thread is treated as immediate. */
module RemoteControl {
  import opened Json
  import opened CastProtocol
  import MessageHandler
  import RM = ReceiverManager
  import MA = MainActivity

  datatype Receiver = Receiver(manager: RM.Manager, activity: MA.Activity)

  /** One message arriving on the channel, read at time `now`. */
  datatype Incoming = Incoming(namespace: string, msg: Inbound, now: int)

  /** A message delivered to the callback registered on the receiver's namespace. The
      dispatcher's action, if any, runs on an attached activity. */
  function Receive(s: Receiver, i: Incoming): (r: Receiver)
    ensures r.manager.(outbox := s.manager.outbox) == s.manager
    ensures var d := MessageHandler.Handle(i.namespace, i.msg);
      r.activity == if s.manager.activityAttached && d.action.Some?
        then MA.RunRemote(s.activity, d.action.value)
        else s.activity
  {
    var h := RM.HandleCastMessage(s.manager, i.namespace, i.msg, i.now);
    Receiver(h.manager, if h.posted.Some? then MA.RunRemote(s.activity, h.posted.value) else s.activity)
  }

  /** `initializeChromecastReceiver`: a new manager is attached to the activity and
      initialized; it is ready exactly when every SDK call in `initialize` succeeded. */
  function Boot(a: MA.Activity, outcome: RM.InitOutcome): (s: Receiver)
    ensures s.manager.activityAttached && s.activity == a
    ensures s.manager.initialized <==> outcome == RM.ListenerAdded
    ensures s.manager.outbox == [] && RM.Valid(s.manager)
  {
    Receiver(RM.Initialize(RM.AttachActivity(RM.Create()), outcome), a)
  }

  function ReceiveAll(s: Receiver, ins: seq<Incoming>): Receiver
    decreases |ins|
  {
    if ins == [] then s else ReceiveAll(Receive(s, ins[0]), ins[1..])
  }

  /** The reply object a message gets at time `now`. */
  function ReplyTo(i: Incoming): Object
  {
    ReplyObject(MessageHandler.Handle(i.namespace, i.msg).reply, i.now)
  }

  /** The message a reply to `i` goes out as. */
  function ReplyOf(i: Incoming): RM.Outbound
  {
    RM.Outbound(CastNamespace, RM.ObjectPayload(ReplyTo(i)))
  }

  /** The replies to a sequence of messages, one each, in order of arrival. */
  function Replies(ins: seq<Incoming>): (r: seq<RM.Outbound>)
    ensures |r| == |ins|
    ensures forall k | 0 <= k < |ins| :: r[k] == ReplyOf(ins[k]) && r[k].namespace == CastNamespace
    decreases |ins|
  {
    if ins == [] then [] else [ReplyOf(ins[0])] + Replies(ins[1..])
  }

  /** While the session stays connected, every message gets exactly one reply, in order of
      arrival, and every reply goes out on the receiver's namespace. */
  lemma {:induction false} OneReplyPerMessage(s: Receiver, ins: seq<Incoming>)
    requires RM.CanSend(s.manager)
    ensures ReceiveAll(s, ins).manager.outbox == s.manager.outbox + Replies(ins)
    decreases |ins|
  {
    if ins != [] {
      var s' := Receive(s, ins[0]);
      OneReply(s, ins[0]);
      OneReplyPerMessage(s', ins[1..]);
      assert ReceiveAll(s, ins) == ReceiveAll(s', ins[1..]);
      assert Replies(ins) == [ReplyOf(ins[0])] + Replies(ins[1..]);
      assert s'.manager.outbox == s.manager.outbox + [ReplyOf(ins[0])];
      assert s.manager.outbox + [ReplyOf(ins[0])] + Replies(ins[1..])
        == s.manager.outbox + ([ReplyOf(ins[0])] + Replies(ins[1..]));
    }
  }

  /** One message, one reply, and the session is still connected afterwards. */
  lemma OneReply(s: Receiver, i: Incoming)
    requires RM.CanSend(s.manager)
    ensures Receive(s, i).manager.outbox == s.manager.outbox + [ReplyOf(i)]
    ensures RM.CanSend(Receive(s, i).manager)
  {
    var h := RM.HandleCastMessage(s.manager, i.namespace, i.msg, i.now);
    assert h.manager.outbox == s.manager.outbox + [h.manager.outbox[|s.manager.outbox|]];
  }

  /** A `load_url` with a non-blank `url` is answered with success whether or not an
      activity is attached; only an attached activity loads it, untrimmed. */
  lemma RemoteLoadUrl(s: Receiver, i: Incoming)
    requires i.msg.Message? && MessageHandler.MessageType(i.msg.fields) == "load_url"
    requires "url" in i.msg.fields && !Blank(Text(i.msg.fields["url"]))
    ensures MessageHandler.Handle(i.namespace, i.msg).reply == Success(MessageHandler.UrlLoaded)
    ensures s.manager.activityAttached ==>
      Receive(s, i).activity.web == s.activity.web + [MA.Load(Text(i.msg.fields["url"]))]
    ensures !s.manager.activityAttached ==> Receive(s, i).activity == s.activity
  {
    LoadUrlDispatched(i);
    ActionRuns(s, i, Navigate(Text(i.msg.fields["url"])));
  }

  lemma LoadUrlDispatched(i: Incoming)
    requires i.msg.Message? && MessageHandler.MessageType(i.msg.fields) == "load_url"
    requires "url" in i.msg.fields && !Blank(Text(i.msg.fields["url"]))
    ensures MessageHandler.Handle(i.namespace, i.msg)
      == MessageHandler.Dispatch(Some(Navigate(Text(i.msg.fields["url"]))), Success(MessageHandler.UrlLoaded))
  {
    MessageHandler.LoadUrlOutcomes(i.namespace, i.msg.fields);
  }

  /** What an attached activity does with the action the dispatcher asked for. */
  lemma ActionRuns(s: Receiver, i: Incoming, act: Action)
    requires MessageHandler.Handle(i.namespace, i.msg).action == Some(act)
    ensures s.manager.activityAttached ==> Receive(s, i).activity == MA.RunRemote(s.activity, act)
    ensures !s.manager.activityAttached ==> Receive(s, i).activity == s.activity
  {
  }

  /** A `toggle_navigation` flips the popover of an attached activity, and is answered with
      success either way. */
  lemma RemoteToggle(s: Receiver, i: Incoming)
    requires i.msg.Message? && MessageHandler.MessageType(i.msg.fields) == "toggle_navigation"
    ensures ReplyTo(i) == ReplyObject(Success(MessageHandler.NavigationToggled), i.now)
    ensures s.manager.activityAttached ==>
      Receive(s, i).activity.menuVisible == !s.activity.menuVisible
    ensures !s.manager.activityAttached ==> Receive(s, i).activity == s.activity
  {
    MessageHandler.ToggleNavigationOutcome(i.namespace, i.msg.fields);
  }

  /** A message the dispatcher refuses leaves the activity alone and is answered with an
      error. */
  lemma RefusedMessagesTouchNothing(s: Receiver, i: Incoming)
    requires MessageHandler.Handle(i.namespace, i.msg).reply.Failure?
    ensures Receive(s, i).activity == s.activity
    ensures ReplyTo(i)["status"] == Str("error")
  {
  }
}
